=== FILE: README.md ===
# Escape-time fractal viewer — a Dafny model

The browser application draws the Mandelbrot set, a quadratic Julia set and a
power-n Julia set into an RGBA canvas buffer. The user pans by dragging and zooms
with the mouse wheel. While the user interacts, the page drops the render
resolution to 0.1 ("motion blur"). A 500 ms quiet period after the last wheel or
mouseup event restores the resolution.

The model has four modules:

- `JsValues` (jsvalues.dfy): `Nullable`, a value that may be JavaScript `null`.
- `Render` (render.dfy) models render.js.
  - The three escape loops are methods. Each is proved against one recursive
    specification function, `EscapeTime`, over an iteration function `Iterate`.
  - The pixel mapping `coord` and the default colour closure are functions.
  - `RenderFrame` holds the nested pixel loops over a fresh `array<int>`. It is
    proved equal to the function `Image`, which gives every byte of the buffer.
  - The byte store into the clamped byte array is ECMAScript ToUint8Clamp
    (clamp, then round half to even).
- `Transform` (transform.dfy) models the drag-and-zoom controller of ui.js as the
  class `TransformContext`.
  - Its fields are the transformation's fields and the listeners' closure state.
  - `setTimeout`/`clearTimeout` act on an explicit table of pending timeouts,
    `timers`, with the handle `actionEnd`.
  - `Tick(elapsed)` is the browser clock advancing; it fires a due timeout.
- `App` (app.dfy) models main.js.
  - The contrast/brightness colour closure and the `fractalType` dispatch are
    functions.
  - The motion-blur policy is a value-level protocol, `Blur`: the update callback
    and `onEnd`, both as written and as intended.
  - The class `App` holds the page's globals and `baseTransformation`. Its event
    methods run the controller and then the callback the controller calls.

Arithmetic is over Dafny's exact `real`, not IEEE doubles.

At c = (2, 0) the Mandelbrot count is min(max_iter, 2): |z1|² = 4 passes
the non-strict test `xs + ys <= 4` (render.js:39). `Render.MandelbrotTwoEscapesAtTwo`
states this.

## Model

| member | source | states |
|---|---|---|
| Render.EscapeTime | render.js:37-46 | It characterises an escape count completely. The count is at most the budget. Every iterate before it passes the loop's continue test. The iterate at the count fails the test unless the budget ran out. |
| Render.MandelbrotEscape | render.js:37-46 | The Mandelbrot loop, started at z = 0 with c = the pixel's point and the non-strict test `xs + ys <= 4`, returns exactly the escape time of z² + c. |
| Render.JuliaEscape | render.js:91-101 | The Julia loop, started at the pixel's point with the constant c = (cx, cy) and the strict test `< 4`, returns exactly the escape time of z² + c. |
| Render.JuliaNEscape | render.js:147-160 | The juliaN loop returns exactly the escape time of the abstract polar power step plus c, with the strict test. |
| Render.EscapeAt | render.js:39 | For every fractal, `0 <= iter <= max_iter`. In particular `max_iter = 0` gives `iter = 0` at every pixel. |
| Render.Escape | render.js:32-46 | It dispatches each fractal to its own loop and returns the count `EscapeAt` specifies. |
| Render.OriginFixed | render.js:40-44 | With c = 0 the iterates of z² + c from 0 stay at the origin. |
| Render.MandelbrotOriginNeverEscapes | render.js:37-46 | The Mandelbrot loop at c = (0, 0) runs to exactly max_iter. |
| Render.MandelbrotTwoEscapesAtTwo | render.js:39 | At c = (2, 0) the count is min(max_iter, 2), because |z1|² = 4 passes `<= 4`. |
| Render.MandelbrotIteratesOnce | render.js:37-39 | With max_iter >= 1 the Mandelbrot loop runs at least once, since it starts at 0. |
| Render.JuliaStartOutside | render.js:91-93 | A Julia or juliaN start point with zx² + zy² >= 4 gets count 0, because the test is strict. |
| Render.Coord | render.js:19-21 | With zoom = 0, `coord` returns o·a − b whatever the pixel. |
| Render.CoordSpan | render.js:19-21 | Moving w pixels moves the plane coordinate by a·zoom, so the canvas spans a·zoom plane units. |
| Render.CoordIncreasing | render.js:19-21 | With positive zoom, scale and width, `coord` is strictly increasing in the pixel. |
| Render.ZeroZoomCollapses | render.js:33-35 | With zoom = 0, every pixel maps to the same plane point (xo·3.5 − 2.5, yo·2 − 1). |
| Render.PlanePoint | render.js:33-35 | A pixel maps to the plane point (`coord` of its column over the width, `coord` of its row over the height). Pixel (0, 0) is (xo·3.5 − 2.5 − 2.5·zoom, yo·2 − 1 − zoom), and zoom 0 sends every pixel to (xo·3.5 − 2.5, yo·2 − 1). |
| Render.DefaultShade | render.js:23-28 | The default shade is 255 at i = 0 and 0 at i = max_iter, and lies in [0, 255] for i <= max_iter. |
| Render.DefaultShadeNonIncreasing | render.js:24-26 | More iterations never give a lighter default shade. |
| Render.Gray | render.js:27 | The default colour has three equal channels. |
| Render.DefaultColor | render.js:24-28 | The default colour closure gives white at 0 iterations, black at max_iter, and for every count up to max_iter a grey with three equal channels in [0, 255]. |
| Render.ResolveColor | render.js:23-29 | A supplied colour callback is used unchanged. With none, the default gives white at 0 iterations and black at max_iter, and a grey in [0, 255] for every count up to max_iter. |
| Render.ToClampedByte | render.js:50-53 | A stored channel is a byte. It is 0 at or below 0 and 255 at or above 255. In between it is within 0.5 of the value, and exact on integers. |
| Render.Channel | render.js:50-52 | The byte stored for channel k is always in [0, 255]. A missing element is `undefined`, which stores 0, and a channel of 255 or more stores 255. |
| Render.AlphaAsWritten | render.js:53 | As written, the alpha byte is the clamped fifth element `c[4]`. It is always a byte, and it is 255 for every colour of at most four elements. |
| Render.Alpha | render.js:53 | As intended, the alpha byte is the clamped fourth element. It is always a byte, and it is 255 for every colour of at most three elements. |
| Render.FourthChannelIgnored | render.js:53 | As written, a colour [0, 0, 0, 128] gets alpha 255. As intended it gets alpha 128. |
| Render.AlphaAgreesOnThreeChannels | render.js:53 | For colours of at most three channels, which is all this program builds, both readings give alpha 255. |
| Render.PixelBytes | render.js:48-53 | A pixel's four bytes are channels 0-2, clamped (missing ones store 0), then the alpha byte. The alpha byte is the clamped fourth channel, or 255 when there is none. |
| Render.PixelIndex | render.js:48 | The buffer index `py·(width·4) + px·4` is a multiple of 4, and for an in-bounds column it lies inside row py's band [4·w·py, 4·w·(py + 1)). |
| Render.GrayPixelOpaque | render.js:27 | A grey colour stores three equal bytes and alpha 255. |
| Render.PixelIndexInBounds | render.js:48 | For an in-bounds pixel, `idx + 3 < 4·width·height`. |
| Render.PixelIndexDecode | render.js:48 | Byte `idx + k` (k < 4) decodes back to the pixel (px, py) and channel k. |
| Render.PixelIndexCovers | render.js:32-35 | Every byte of the buffer belongs to some in-bounds pixel and channel. |
| Render.PixelIndexDisjoint | render.js:48 | Distinct pixels never share a byte. |
| Render.WritePixel | render.js:50-53 | The four stores put the pixel's bytes at `idx` … `idx + 3` and leave every other byte of the buffer as it was. |
| Render.Image | render.js:31-55 | The frame buffer has exactly 4·width·height bytes. |
| Render.ImageAt | render.js:48-53 | Byte k of pixel (px, py) is byte k of the colour of that pixel's escape count. |
| Render.DrawPixel | render.js:35-53 | One turn of the inner loop writes the four bytes of pixel (px, py) as `Image` gives them, keeps every byte already written, and leaves every byte outside that pixel unchanged. |
| Render.RenderFrame | render.js:32-55 | The nested column-by-column pixel loops write every byte of a fresh buffer, and the buffer equals `Image`. |
| Render.Mandelbrot | render.js:18-58 | `Fractal.mandelbrot` produces the Mandelbrot `Image` of the view, with the given colour or the default one. |
| Render.Julia | render.js:71-113 | `Fractal.julia` produces the Julia `Image` for c = (cx, cy). |
| Render.JuliaN | render.js:127-172 | `Fractal.juliaN` produces the power-n Julia `Image`. |
| Transform.Sign | ui.js:30 | `Math.sign` is −1, 0 or 1 and has the sign of its argument. |
| Transform.WheelZoom | ui.js:30 | The committed zoom is never negative. deltaY = 0 leaves it unchanged. With 0.03·zoomSpeed in (−1, 1), a positive zoom stays positive. Scrolling down never decreases it and scrolling up never increases it. |
| Transform.PanDelta | ui.js:53-54 | No motion gives no offset change. With positive width, resolution and zoom, the offset grows exactly when the cursor moved towards smaller client coordinates. |
| Transform.AtMostOnePending | ui.js:27 | When all pending timeout ids lie in the one `actionEnd` slot, at most one timeout is pending. |
| Transform.TransformContext.constructor | ui.js:15-27 | The context starts with zoom 1, zoomSpeed 1, the given offset or [0, 0], the given resolution offset, no drag and no pending timeout. |
| Transform.TransformContext.UpdateResolution | ui.js:20-22 | `updateResolution(r)` sets `resolutionOffset` to r and changes nothing else. |
| Transform.TransformContext.CancelActionEnd | ui.js:48 | `clearTimeout(actionEnd)` leaves no timeout pending. |
| Transform.TransformContext.RearmActionEnd | ui.js:35-39 | The old timeout is cancelled. Exactly one new 500 ms timeout is pending, and `actionEnd` holds its fresh id. |
| Transform.TransformContext.Wheel | ui.js:29-40 | The wheel commits `WheelZoom` at once, leaves the offsets alone and re-arms the single debounce timeout. |
| Transform.TransformContext.MouseDown | ui.js:44-49 | Mousedown starts a drag at the client point and cancels the pending timeout without re-arming. |
| Transform.TransformContext.MouseUp | ui.js:51-64 | After a mousedown, mouseup adds `PanDelta` on both axes (both divided by the width), re-arms the timeout and ends the drag. With no drag in progress it changes nothing. |
| Transform.TransformContext.MouseMove | ui.js:66-78 | With no drag it emits nothing. While dragging it emits offset + `PanDelta` on each axis and commits nothing. |
| Transform.TransformContext.Tick | ui.js:36-39 | The debounce fires exactly when its delay is used up. Then `actionEnd` is null and nothing is pending; otherwise the remaining delay shrinks by the elapsed time. |
| Transform.MoveThenRelease | ui.js:51-78 | With zoom and resolution offset unchanged, the offset committed at mouseup is the candidate a mousemove to the same point emits. |
| Transform.WheelDebounce | ui.js:35-39 | After a wheel event, 499 ms do not fire `onEnd`. A second wheel restarts the delay. `onEnd` fires 500 ms after the last event, leaving the slot empty. |
| App.ContrastCorrection | main.js:13 | The contrast factor 259·(c + 255) / (255·(259 − c)) is 1 at contrast 0 (neutral) and 0 at contrast −255. |
| App.ContrastCorrectionPositive | main.js:13 | For contrast in (−255, 259) the correction factor is positive. |
| App.ContrastShade | main.js:13-17 | With contrast 0 and brightness 0, the page's colour value is the render functions' default shade 255 − iter·255/maxIterations. |
| App.ContrastShadeNonIncreasing | main.js:13-17 | For contrast in (−255, 259), the colour value is non-increasing in iter. |
| App.ColorFunc | main.js:13-19 | `color.getFunc()` returns a closure whose every colour has three equal channels. At neutral contrast and brightness it gives white at 0 iterations and black at maxIterations. |
| App.ColorFuncOpaqueGray | main.js:16-19 | The closure returns r = g = b, which stores with alpha 255. |
| App.NeutralColorIsDefault | main.js:12-20 | At neutral contrast and brightness, `color.getFunc()` agrees with the default colour render.js builds. |
| App.FractalOf | main.js:31-41 | `fractalType` 0, 1 and 2 select mandelbrot, julia and juliaN respectively, and each way round. Both Julia variants take c = (cx, cy), and juliaN takes the exponent n. |
| App.Frame | main.js:29-43 | `render` produces a frame exactly when `fractalType` is 0, 1 or 2, and the frame has 4·w·h bytes. |
| App.FramePixelOpaqueGray | main.js:29-43 | Every pixel `render` draws is an opaque grey. |
| App.BlurOnUpdate | main.js:60-63 | With motion blur on, an update drops the resolution to 0.1 and leaves a saved resolution in `res`. That is the current one when `res` was null; an existing saved value is kept. With motion blur off nothing changes. |
| App.BlurOnEnd | main.js:67-72 | Corrected `onEnd`: with motion blur on, `res` becomes null and a saved resolution is restored; with no saved value the resolution stays. With motion blur off nothing changes. |
| App.BlurOnEndAsWritten | main.js:67-72 | `onEnd` as written. With motion blur on, the new resolution is the saved `res`, which is null when nothing was saved, and `res` becomes null. With motion blur off both are unchanged. |
| App.UpdatesKeepFirstSaved | main.js:59-65 | With motion blur on, any number (at least one) of update callbacks keeps the first saved resolution in `res` and leaves `resolution` at 0.1. |
| App.InteractionRestoresResolution | main.js:67-73 | After any number of updates, `onEnd` (as intended) gives back the pre-interaction resolution and clears `res`. |
| App.MotionBlurOffInert | main.js:59-73 | With motion blur off, neither callback changes `resolution` or `res`. |
| App.ClickWithoutMoveNullsResolution | main.js:67-73 | As written, `onEnd` with no update before it sets `resolution` to null. As intended it keeps the resolution. |
| App.AsWrittenAgreesAfterUpdate | main.js:67-73 | Once at least one update has run, the written and the intended `onEnd` agree. |
| App.PanTracksCursorX | ui.js:53 | A horizontal drag commits an x offset that keeps the grabbed plane point under the cursor. |
| App.PanTracksCursorYOnlyWhenSquare | ui.js:54 | Because the y delta is also divided by the width, a vertical drag keeps the grabbed point under the cursor exactly when the canvas is square (for a non-zero move). |
| App.App.constructor | main.js:1-11 | The globals start at resolution 0.8, 50 iterations, motion blur on, type 0, n = 2 and c = (−0.7, 0.27015), with neutral colour and no saved resolution. The transformation starts with offset [0.55, 0.5] and resolution offset 0.8. |
| App.App.Render | main.js:29-43 | `render(t)` draws `Frame` of the current settings at view t, calling the matching render.js function. |
| App.App.SetResolution | main.js:75-81 | `setResolution(r)` sets both `resolution` and the transformation's `resolutionOffset` to r, and renders when asked. |
| App.App.OnUpdate | main.js:59-65 | The update callback applies `BlurOnUpdate` and renders the emitted transformation. |
| App.App.OnEnd | main.js:67-73 | Corrected `onEnd` applies `BlurOnEnd` and, with motion blur on, renders the base transformation. |
| App.App.Wheel | ui.js:29-40 | A wheel event commits the zoom, re-arms the debounce, applies the blur update and renders the new transformation. |
| App.App.MouseDown | ui.js:44-49 | Mousedown starts the drag and cancels the pending debounce. |
| App.App.MouseMove | ui.js:66-78 | While dragging, the candidate is computed with the resolution in force before the callback. The callback then applies the blur update and renders the candidate. Otherwise nothing changes. |
| App.App.MouseUp | ui.js:51-64 | After a mousedown, mouseup commits the pan at the current resolution (0.1 while blurred), re-arms the debounce under the next timeout id and ends the drag. With no drag it changes no offset, timeout or timeout id. |
| App.App.Tick | ui.js:36-39 | When the debounce fires, the slot empties, `onEnd` applies `BlurOnEnd` and, with motion blur on, renders the base transformation. Otherwise the handle is kept, the pending delay shrinks by the elapsed time, and `resolution`, `res` and the frame are untouched. |
| App.WheelSession | ui.js:29-39 | With motion blur on, 499 ms after a wheel event the interaction has not ended; 1 ms more fires `onEnd`, which restores the resolution and renders a frame at the new zoom. |
| App.DragSession | main.js:59-73 | A drag with motion blur on pans at resolution 0.1. 500 ms after the mouseup, the original resolution is back and `res` is null. |
| App.ClickSession | main.js:67-73 | With corrected `onEnd`, a click with no motion leaves the offsets and the resolution unchanged. |

## Left out

- IEEE-754 doubles are not modelled: all arithmetic is exact `real`, so NaN, Infinity and rounding are absent.
- Division by zero in the colour builders is excluded. `App.ContrastShade` requires maxIterations > 0 and contrast ≠ 259.
- `Render.Mandelbrot`, `Render.Julia` and `Render.JuliaN` require a colour or max_iter > 0, for the same reason.
- The pan methods require an element width > 0.
- `Render.JuliaNEscape`: the polar step (`Math.atan2`, `cos`, `sin`, `**`) is the parameter `power: (Pt, real) -> Pt`. Only the loop's shape, bounds and buffer writes are modelled.
- `createImageData`, `putImageData` and `getContext` are not modelled. A frame is a fresh `array<int>` (or its sequence) of 4·w·h bytes that is returned.
- A zero-sized canvas, on which `createImageData` throws, gives an empty buffer in the model.
- Canvas sizing (`canvas.width = innerWidth * resolution`, `UI.onResize`, main.js:49-56) is not modelled. The canvas and element sizes are parameters of each call.
- `setResolution` therefore does not resize anything.
- Event registration and `preventDefault` are not modelled. Each listener is a method call.
- `Date.now()` and `lastMotion` are not modelled: they are only recorded, never read.
- Wall-clock time is not modelled. `Tick(elapsed)` advances the browser clock.
- `UI.setWorking`, `UI.toggleHeight`, `UI.setSliderValue` and `UI.updateChoice` are not modelled: they only change the DOM.
- `takeImage` (a download) and `asyncRender` (scheduling only) are not modelled.
- The initial `render()` call at main.js:93 is not modelled.
- Render.PixelBytes: the frame model (`Image`, `RenderFrame`, `Render.Mandelbrot`, `Render.Julia`, `Render.JuliaN`) stores the corrected alpha, the fourth colour element `c[3]`. The store as written, which reads `c[4]`, is `Render.AlphaAsWritten`. The two agree on every colour this program builds, which has three elements (`Render.AlphaAgreesOnThreeChannels`; the colour callback type at render.js:4-7 returns three numbers).
- `App.App.OnEnd`: the class uses the corrected `onEnd`. The as-written behaviour appears only on values, in `App.BlurOnEndAsWritten`.

## Findings

| source | as written | input that shows it | evidently intended | confidence | as-written member | corrected member |
|---|---|---|---|---|---|---|
| render.js:53 | The alpha byte reads element `c[4]`, a fifth element, and stores 255 when it is missing. | A colour callback returning [0, 0, 0, 128] gets alpha 255 instead of 128. | Read the fourth element `c[3]`. | medium, not executed | Render.FourthChannelIgnored | Render.PixelBytes |
| main.js:69 | `onEnd` calls `setResolution(res)` even when `res` is null. | With motion blur on, a mousedown then a mouseup with no mousemove: 500 ms later `resolution` and `resolutionOffset` become null. The canvas width becomes `innerWidth * null` = 0, so the `render()` inside `onEnd` throws in `createImageData(0, 0)`; while the resolution is null, a pan delta is 0/0 = NaN: the next drag's first mousemove emits a NaN candidate, and a click with no mousemove commits a NaN offset. | Restore only a saved resolution. | high, not executed | App.ClickWithoutMoveNullsResolution | App.InteractionRestoresResolution |

=== FILE: app.dfy ===
/** The page script (main.js): the contrast/brightness colouring, the `render`
    dispatch on `fractalType`, and the motion-blur policy that lowers the resolution
    while the user drags or zooms and restores it when the debounce fires. */
module App {
  import opened JsValues
  import opened Render
  import opened Transform

  // ---------------------------------------------------------------------------
  // Colour (`color.getFunc`)

  /** `contrastCorrection = 259 (contrast + 255) / (255 (259 - contrast))`. */
  function ContrastCorrection(contrast: real): (r: real)
    requires contrast != 259.0
    ensures contrast == 0.0 ==> r == 1.0
    ensures contrast == -255.0 ==> r == 0.0
  {
    (259.0 * (contrast + 255.0)) / (255.0 * (259.0 - contrast))
  }

  /** Inside the open range (-255, 259) the correction factor is positive. */
  lemma ContrastCorrectionPositive(contrast: real)
    requires -255.0 < contrast < 259.0
    ensures ContrastCorrection(contrast) > 0.0
  {
    var num, den := 259.0 * (contrast + 255.0), 255.0 * (259.0 - contrast);
    assert num > 0.0 && den > 0.0;
    assert ContrastCorrection(contrast) * den == num;
  }

  /** The value the closure returns on all three channels:
      `cc * ((255 - iter * 255 / maxIterations) - 128) + 128 + brightness`. With
      contrast and brightness at 0 it is the render functions' default shade. */
  function ContrastShade(contrast: real, brightness: real, maxIterations: nat, iter: nat): (v: real)
    requires contrast != 259.0 && maxIterations > 0
    ensures contrast == 0.0 && brightness == 0.0 ==> v == DefaultShade(maxIterations, iter)
  {
    assert ContrastCorrection(0.0) == 1.0;
    ContrastCorrection(contrast) * ((255.0 - (iter as real * (255.0 / maxIterations as real))) - 128.0)
      + 128.0 + brightness
  }

  /** For a contrast in (-255, 259), more iterations never give a lighter grey. */
  lemma ContrastShadeNonIncreasing(contrast: real, brightness: real, maxIterations: nat, i: nat, j: nat)
    requires -255.0 < contrast < 259.0 && maxIterations > 0 && i <= j
    ensures ContrastShade(contrast, brightness, maxIterations, j)
         <= ContrastShade(contrast, brightness, maxIterations, i)
  {
    ContrastCorrectionPositive(contrast);
    DefaultShadeNonIncreasing(maxIterations, i, j);
    var cc := ContrastCorrection(contrast);
    var si, sj := DefaultShade(maxIterations, i), DefaultShade(maxIterations, j);
    assert ContrastShade(contrast, brightness, maxIterations, i) == cc * (si - 128.0) + 128.0 + brightness;
    assert ContrastShade(contrast, brightness, maxIterations, j) == cc * (sj - 128.0) + 128.0 + brightness;
    var d := si - sj;
    assert cc * si == cc * sj + cc * d;
    assert cc * d >= 0.0;
  }

  /** The closure `color.getFunc()` returns: a grey [c, c, c]. */
  function ColorFunc(contrast: real, brightness: real, maxIterations: nat): (color: ColorFn)
    requires contrast != 259.0 && maxIterations > 0
    ensures forall iter: nat :: |color(iter)| == 3 && color(iter)[0] == color(iter)[1] == color(iter)[2]
    ensures contrast == 0.0 && brightness == 0.0 ==>
      color(0) == [255.0, 255.0, 255.0] && color(maxIterations) == [0.0, 0.0, 0.0]
  {
    (iter: nat) => Gray(ContrastShade(contrast, brightness, maxIterations, iter))
  }

  /** The closure's colours have three equal channels and so an opaque alpha byte. */
  lemma ColorFuncOpaqueGray(contrast: real, brightness: real, maxIterations: nat, iter: nat)
    requires contrast != 259.0 && maxIterations > 0
    ensures var c := ColorFunc(contrast, brightness, maxIterations)(iter);
            |c| == 3 && c[0] == c[1] == c[2] && PixelBytes(c)[3] == 255
  {
    GrayPixelOpaque(ContrastShade(contrast, brightness, maxIterations, iter));
  }

  /** With contrast and brightness at 0 the page's colour is the render functions'
      own default colour. */
  lemma NeutralColorIsDefault(maxIterations: nat, iter: nat)
    requires maxIterations > 0
    ensures ColorFunc(0.0, 0.0, maxIterations)(iter) == ResolveColor(Null, maxIterations)(iter)
  {
  }

  // ---------------------------------------------------------------------------
  // The `render` dispatch

  /** The globals `render` reads besides the transformation. `power` stands for the
      polar power juliaN computes. */
  datatype Settings = Settings(fractalType: int, maxIterations: nat, n: real, cx: real, cy: real,
                               contrast: real, brightness: real, power: (Pt, real) -> Pt)

  /** The fractal `fractalType` 0, 1 and 2 select: mandelbrot, julia and juliaN. */
  function FractalOf(s: Settings): (f: Fractal)
    requires 0 <= s.fractalType <= 2
    ensures f.MandelbrotSet? <==> s.fractalType == 0
    ensures f.JuliaSet? <==> s.fractalType == 1
    ensures f.JuliaNSet? <==> s.fractalType == 2
    ensures !f.MandelbrotSet? ==> f.c == Pt(s.cx, s.cy)
    ensures f.JuliaNSet? ==> f.n == s.n
  {
    if s.fractalType == 0 then MandelbrotSet
    else if s.fractalType == 1 then JuliaSet(Pt(s.cx, s.cy))
    else JuliaNSet(s.n, Pt(s.cx, s.cy), s.power)
  }

  /** The frame `render` puts on the canvas; any `fractalType` other than 0, 1 and 2
      matches no case of the switch and renders nothing. */
  function Frame(s: Settings, v: View, w: nat, h: nat): (frame: Nullable<seq<int>>)
    requires s.contrast != 259.0 && s.maxIterations > 0
    ensures frame.NonNull? <==> 0 <= s.fractalType <= 2
    ensures frame.NonNull? ==> |frame.value| == 4 * w * h
  {
    if 0 <= s.fractalType <= 2 then
      NonNull(Image(FractalOf(s), v, w, h, s.maxIterations, ColorFunc(s.contrast, s.brightness, s.maxIterations)))
    else Null
  }

  /** Every pixel of a rendered frame is an opaque grey: three equal colour bytes and
      an alpha byte of 255. */
  lemma FramePixelOpaqueGray(s: Settings, v: View, w: nat, h: nat, px: nat, py: nat)
    requires s.contrast != 259.0 && s.maxIterations > 0 && 0 <= s.fractalType <= 2
    requires px < w && py < h
    ensures var i, img := PixelIndex(px, py, w), Frame(s, v, w, h).value;
            i + 3 < |img| && img[i + 3] == 255 && img[i] == img[i + 1] == img[i + 2]
  {
    var color := ColorFunc(s.contrast, s.brightness, s.maxIterations);
    var iter := EscapeAt(FractalOf(s), PlanePoint(v, px, py, w, h), s.maxIterations);
    ImageAt(FractalOf(s), v, w, h, s.maxIterations, color, px, py, 0);
    ImageAt(FractalOf(s), v, w, h, s.maxIterations, color, px, py, 1);
    ImageAt(FractalOf(s), v, w, h, s.maxIterations, color, px, py, 2);
    ImageAt(FractalOf(s), v, w, h, s.maxIterations, color, px, py, 3);
    ColorFuncOpaqueGray(s.contrast, s.brightness, s.maxIterations, iter);
    GrayPixelOpaque(ContrastShade(s.contrast, s.brightness, s.maxIterations, iter));
  }

  // ---------------------------------------------------------------------------
  // Motion blur

  /** The resolution frames are rendered at while the user interacts. */
  const MotionResolution := 0.1

  /** The globals `resolution` and `res`; `res` is null when nothing is saved. */
  datatype Blur = Blur(resolution: real, saved: Nullable<real>)

  /** What the update callback does to them: with motion blur on, save the resolution
      unless one is saved already, then drop to 0.1. */
  function BlurOnUpdate(motionBlur: bool, s: Blur): (t: Blur)
    ensures !motionBlur ==> t == s
    ensures motionBlur ==> t.resolution == MotionResolution && t.saved.NonNull?
    ensures motionBlur && s.saved.Null? ==> t.saved.value == s.resolution
    ensures s.saved.NonNull? ==> t.saved == s.saved
  {
    if !motionBlur then s
    else Blur(MotionResolution, if s.saved.Null? then NonNull(s.resolution) else s.saved)
  }

  /** What onEnd does to them, as intended: with motion blur on, restore the saved
      resolution if there is one, and clear the saved value. */
  function BlurOnEnd(motionBlur: bool, s: Blur): (t: Blur)
    ensures !motionBlur ==> t == s
    ensures motionBlur ==> t.saved.Null?
    ensures motionBlur && s.saved.NonNull? ==> t.resolution == s.saved.value
    ensures s.saved.Null? ==> t.resolution == s.resolution
  {
    if !motionBlur then s
    else match s.saved
      case NonNull(r) => Blur(r, Null)
      case Null => Blur(s.resolution, Null)
  }

  /** What onEnd does as written: `setResolution(res)` whatever `res` holds. The pair
      is the new `resolution` (null if `res` was null) and the new `res`. */
  function BlurOnEndAsWritten(motionBlur: bool, s: Blur): (r: (Nullable<real>, Nullable<real>))
    ensures r.0.NonNull? <==> (!motionBlur || s.saved.NonNull?)
    ensures motionBlur && s.saved.NonNull? ==> r.0.value == s.saved.value
    ensures motionBlur ==> r.1.Null?
    ensures !motionBlur ==> r == (NonNull(s.resolution), s.saved)
  {
    if !motionBlur then (NonNull(s.resolution), s.saved)
    else (s.saved, Null)
  }

  /** `k` update callbacks in a row. */
  function BlurUpdates(motionBlur: bool, s: Blur, k: nat): Blur
    decreases k
  {
    if k == 0 then s else BlurOnUpdate(motionBlur, BlurUpdates(motionBlur, s, k - 1))
  }

  /** Repeated updates keep the first saved resolution and stay at 0.1. */
  lemma {:induction false} UpdatesKeepFirstSaved(s: Blur, k: nat)
    requires s.saved.Null? && k >= 1
    ensures BlurUpdates(true, s, k) == Blur(MotionResolution, NonNull(s.resolution))
    decreases k
  {
    if k > 1 {
      UpdatesKeepFirstSaved(s, k - 1);
    }
  }

  /** Any number of updates followed by onEnd gives back the resolution the
      interaction started with, and leaves nothing saved. */
  lemma InteractionRestoresResolution(s: Blur, k: nat)
    requires s.saved.Null?
    ensures BlurOnEnd(true, BlurUpdates(true, s, k)) == Blur(s.resolution, Null)
  {
    if k >= 1 {
      UpdatesKeepFirstSaved(s, k);
    }
  }

  /** With motion blur off, neither callback touches `resolution` or `res`. */
  lemma {:induction false} MotionBlurOffInert(s: Blur, k: nat)
    ensures BlurUpdates(false, s, k) == s
    ensures BlurOnEnd(false, s) == s
    decreases k
  {
    if k > 0 {
      MotionBlurOffInert(s, k - 1);
    }
  }

  /** As written, an interaction with no update (a mousedown and mouseup with no
      mousemove between them) ends by setting `resolution` to null. */
  lemma ClickWithoutMoveNullsResolution(r: real)
    ensures BlurOnEndAsWritten(true, BlurUpdates(true, Blur(r, Null), 0)).0 == Null
    ensures BlurOnEnd(true, BlurUpdates(true, Blur(r, Null), 0)).resolution == r
  {
  }

  /** After at least one update the code as written and as intended agree. */
  lemma AsWrittenAgreesAfterUpdate(s: Blur, k: nat)
    requires s.saved.Null? && k >= 1
    ensures BlurOnEndAsWritten(true, BlurUpdates(true, s, k))
         == (NonNull(BlurOnEnd(true, BlurUpdates(true, s, k)).resolution), Null)
  {
    UpdatesKeepFirstSaved(s, k);
  }

  // ---------------------------------------------------------------------------
  // How a drag moves the picture

  /** Shifting the pixel by e and the offset by d shifts the plane coordinate by
      a · (zoom · e / w + d). */
  lemma CoordShift(zoom: real, x: real, e: real, o: real, d: real, w: real, a: real, b: real)
    requires w != 0.0
    ensures Coord(zoom, x + e, o + d, w, a, b) - Coord(zoom, x, o, w, a, b) == a * (zoom * e / w + d)
  {
    assert (x + e) / w == x / w + e / w;
    assert (e / w) * zoom == zoom * e / w;
  }

  /** For a non-zero numerator, dividing by h and by w agree exactly when h == w. */
  lemma QuotientsAgree(n: real, w: real, h: real)
    requires n != 0.0 && w > 0.0 && h > 0.0
    ensures n / h == n / w <==> w == h
  {
    if w != h {
      var a, b := n / h, n / w;
      assert a * h == n && b * w == n;
      assert a != 0.0;
      assert a * h - a * w == a * (h - w);
      assert b * w != a * w;
    }
  }

  /** The pan delta undoes a cursor motion of e = (client - down) · r canvas pixels,
      scaled by zoom / w. */
  lemma PanDeltaUndoesMotion(down: real, client: real, r: real, zoom: real, w: real)
    requires w != 0.0
    ensures PanDelta(down, client, r, zoom, w) == -(zoom * ((client - down) * r) / w)
  {
    var m := (down - client) * r * zoom;
    assert m == -(zoom * ((client - down) * r));
    assert m / w == -(zoom * ((client - down) * r)) / w;
  }

  /** Dragging by `client - down` CSS pixels moves the canvas content by that much
      times the resolution in canvas pixels. The committed x offset keeps the plane
      point that was grabbed under the cursor. */
  lemma PanTracksCursorX(zoom: real, p: real, xo: real, down: real, client: real, r: real, w: real)
    requires w > 0.0
    ensures Coord(zoom, p + (client - down) * r, xo + PanDelta(down, client, r, zoom, w), w, PlaneWidth, PlaneLeft)
         == Coord(zoom, p, xo, w, PlaneWidth, PlaneLeft)
  {
    var e := (client - down) * r;
    PanDeltaUndoesMotion(down, client, r, zoom, w);
    CoordShift(zoom, p, e, xo, PanDelta(down, client, r, zoom, w), w, PlaneWidth, PlaneLeft);
  }

  /** The y offset is divided by the width too, while the y axis spans the height:
      a vertical drag keeps the grabbed point under the cursor exactly when the
      canvas is square. */
  lemma PanTracksCursorYOnlyWhenSquare(zoom: real, q: real, yo: real, down: real, client: real,
                                      r: real, w: real, h: real)
    requires w > 0.0 && h > 0.0 && (client - down) * r * zoom != 0.0
    ensures Coord(zoom, q + (client - down) * r, yo + PanDelta(down, client, r, zoom, w), h, PlaneHeight, PlaneTop)
         == Coord(zoom, q, yo, h, PlaneHeight, PlaneTop)
        <==> w == h
  {
    var e := (client - down) * r;
    var d := PanDelta(down, client, r, zoom, w);
    PanDeltaUndoesMotion(down, client, r, zoom, w);
    CoordShift(zoom, q, e, yo, d, h, PlaneHeight, PlaneTop);
    QuotientsAgree(zoom * e, w, h);
  }

  // ---------------------------------------------------------------------------
  // The page's globals

  class App {
    var resolution: real
    var maxIterations: nat
    var motionBlur: bool
    var fractalType: int
    var n: real
    var cx: real
    var cy: real
    var contrast: real
    var brightness: real
    var res: Nullable<real>
    const power: (Pt, real) -> Pt
    /** `baseTransformation`. */
    const transform: TransformContext

    /** The transformation's resolution offset is the global resolution: every
        writer of either goes through `setResolution`. */
    ghost predicate Valid()
      reads this, transform
    {
      transform.Valid() &&
      transform.resolutionOffset == resolution &&
      maxIterations > 0 && contrast != 259.0
    }

    function CurrentSettings(): Settings
      reads this
    {
      Settings(fractalType, maxIterations, n, cx, cy, contrast, brightness, power)
    }

    function BlurState(): Blur
      reads this
    {
      Blur(resolution, res)
    }

    /** The view of `baseTransformation`, which `render()` uses by default. */
    function BaseView(): View
      reads this, transform
    {
      View(transform.zoom, transform.offsetX, transform.offsetY)
    }

    /** The script's start-up: the globals' initial values and
        `createTransformContext(canvas, [0.55, 0.5], resolution, ...)`. */
    constructor (power: (Pt, real) -> Pt)
      ensures Valid() && fresh(transform)
      ensures resolution == 0.8 && maxIterations == 50 && motionBlur && fractalType == 0
      ensures n == 2.0 && cx == -0.7 && cy == 0.27015 && contrast == 0.0 && brightness == 0.0
      ensures res == Null && this.power == power
      ensures transform.zoom == 1.0 && transform.offsetX == 0.55 && transform.offsetY == 0.5
      ensures !transform.mousedown && transform.actionEnd == NoTimer && transform.timers == map[]
    {
      resolution := 0.8;
      maxIterations := 50;
      motionBlur := true;
      fractalType := 0;
      n := 2.0;
      cx := -0.7;
      cy := 0.27015;
      contrast := 0.0;
      brightness := 0.0;
      res := Null;
      this.power := power;
      transform := new TransformContext(NonNull((0.55, 0.5)), 0.8);
    }

    /** `render(t)` on a w × h canvas. */
    method Render(v: View, w: nat, h: nat) returns (frame: Nullable<seq<int>>)
      requires maxIterations > 0 && contrast != 259.0
      ensures frame == Frame(CurrentSettings(), v, w, h)
    {
      var color := ColorFunc(contrast, brightness, maxIterations);
      if fractalType == 0 {
        var data := Mandelbrot(v.zoom, v.xo, v.yo, w, h, maxIterations, NonNull(color));
        frame := NonNull(data[..]);
      } else if fractalType == 1 {
        var data := Julia(v.zoom, v.xo, v.yo, w, h, maxIterations, NonNull(color), cx, cy);
        frame := NonNull(data[..]);
      } else if fractalType == 2 {
        var data := JuliaN(v.zoom, v.xo, v.yo, w, h, maxIterations, NonNull(color), n, cx, cy, power);
        frame := NonNull(data[..]);
      } else {
        frame := Null;
      }
    }

    /** `setResolution(r, doRender)`: the global and the transformation's offset
        both become r. */
    method SetResolution(r: real, doRender: bool, w: nat, h: nat) returns (frame: Nullable<seq<int>>)
      requires Valid()
      modifies this`resolution, transform`resolutionOffset
      ensures Valid()
      ensures resolution == r && transform.resolutionOffset == r
      ensures frame == if doRender then Frame(CurrentSettings(), BaseView(), w, h) else Null
    {
      transform.UpdateResolution(r);
      resolution := r;
      if doRender {
        frame := Render(BaseView(), w, h);
      } else {
        frame := Null;
      }
    }

    /** The update callback given to `createTransformContext`. */
    method OnUpdate(v: View, w: nat, h: nat) returns (frame: Nullable<seq<int>>)
      requires Valid()
      modifies this`resolution, this`res, transform`resolutionOffset
      ensures Valid()
      ensures BlurState() == BlurOnUpdate(motionBlur, old(BlurState()))
      ensures frame == Frame(CurrentSettings(), v, w, h)
    {
      if motionBlur {
        if res == Null {
          res := NonNull(resolution);
        }
        var _ := SetResolution(MotionResolution, false, w, h);
      }
      frame := Render(v, w, h);
    }

    /** `baseTransformation.onEnd`, corrected to restore only a saved resolution. */
    method OnEnd(w: nat, h: nat) returns (frame: Nullable<seq<int>>)
      requires Valid()
      modifies this`resolution, this`res, transform`resolutionOffset
      ensures Valid()
      ensures BlurState() == BlurOnEnd(motionBlur, old(BlurState()))
      ensures frame == if motionBlur then Frame(CurrentSettings(), BaseView(), w, h) else Null
    {
      if motionBlur {
        if res.NonNull? {
          var _ := SetResolution(res.value, false, w, h);
        }
        res := Null;
        frame := Render(BaseView(), w, h);
      } else {
        frame := Null;
      }
    }

    /** A wheel event on the canvas: the controller commits the zoom and re-arms the
        debounce, then the update callback renders the transformation. */
    method Wheel(deltaY: real, w: nat, h: nat) returns (frame: Nullable<seq<int>>)
      requires Valid()
      modifies this`resolution, this`res, transform`resolutionOffset, transform`zoom,
               transform`timers, transform`actionEnd, transform`nextTimerId
      ensures Valid()
      ensures transform.zoom == WheelZoom(old(transform.zoom), deltaY, transform.zoomSpeed)
      ensures transform.actionEnd == Timer(old(transform.nextTimerId))
      ensures transform.timers == map[old(transform.nextTimerId) := DebounceMs]
      ensures transform.nextTimerId == old(transform.nextTimerId) + 1
      ensures BlurState() == BlurOnUpdate(motionBlur, old(BlurState()))
      ensures frame == Frame(CurrentSettings(), BaseView(), w, h)
    {
      transform.Wheel(deltaY);
      frame := OnUpdate(BaseView(), w, h);
    }

    /** A mousedown on the canvas. */
    method MouseDown(clientX: real, clientY: real)
      requires Valid()
      modifies transform`mousedown, transform`downX, transform`downY, transform`timers
      ensures Valid()
      ensures transform.mousedown && transform.downX == clientX && transform.downY == clientY
      ensures transform.timers == map[]
    {
      transform.MouseDown(clientX, clientY);
    }

    /** A mousemove over a canvas `w` pixels wide. While dragging, the candidate is
        computed with the resolution in force before the update callback runs, and
        the callback then lowers the resolution. */
    method MouseMove(clientX: real, clientY: real, w: nat, h: nat) returns (frame: Nullable<seq<int>>)
      requires Valid() && w > 0
      modifies this`resolution, this`res, transform`resolutionOffset
      ensures Valid()
      ensures !transform.mousedown ==> frame == Null && BlurState() == old(BlurState())
      ensures transform.mousedown ==>
        BlurState() == BlurOnUpdate(motionBlur, old(BlurState())) &&
        frame == Frame(CurrentSettings(), View(transform.zoom,
          transform.offsetX + PanDelta(transform.downX, clientX, old(resolution), transform.zoom, w as real),
          transform.offsetY + PanDelta(transform.downY, clientY, old(resolution), transform.zoom, w as real)), w, h)
    {
      var emitted := transform.MouseMove(clientX, clientY, w);
      if emitted.NonNull? {
        var c := emitted.value;
        frame := OnUpdate(View(c.zoom, c.offsetX, c.offsetY), w, h);
      } else {
        frame := Null;
      }
    }

    /** A mouseup anywhere in the document. No update callback runs. */
    method MouseUp(clientX: real, clientY: real, w: nat)
      requires Valid() && w > 0
      modifies transform`offsetX, transform`offsetY, transform`mousedown, transform`timers,
               transform`actionEnd, transform`nextTimerId
      ensures Valid()
      ensures !transform.mousedown
      ensures old(transform.mousedown) ==>
        transform.offsetX == old(transform.offsetX) + PanDelta(transform.downX, clientX, resolution, transform.zoom, w as real) &&
        transform.offsetY == old(transform.offsetY) + PanDelta(transform.downY, clientY, resolution, transform.zoom, w as real) &&
        transform.actionEnd == Timer(old(transform.nextTimerId)) &&
        transform.timers == map[old(transform.nextTimerId) := DebounceMs] &&
        transform.nextTimerId == old(transform.nextTimerId) + 1
      ensures !old(transform.mousedown) ==>
        transform.offsetX == old(transform.offsetX) && transform.offsetY == old(transform.offsetY) &&
        transform.timers == old(transform.timers) &&
        transform.actionEnd == old(transform.actionEnd) && transform.nextTimerId == old(transform.nextTimerId)
    {
      transform.MouseUp(clientX, clientY, w);
    }

    /** `elapsed` milliseconds pass; when the debounce fires, onEnd runs. */
    method Tick(elapsed: nat, w: nat, h: nat) returns (ended: bool, frame: Nullable<seq<int>>)
      requires Valid()
      modifies this`resolution, this`res, transform`resolutionOffset, transform`timers, transform`actionEnd
      ensures Valid()
      ensures ended == (old(transform.actionEnd).Timer? && old(transform.actionEnd).id in old(transform.timers) &&
                        old(transform.timers)[old(transform.actionEnd).id] <= elapsed)
      ensures ended ==> transform.actionEnd == NoTimer && transform.timers == map[] &&
                        BlurState() == BlurOnEnd(motionBlur, old(BlurState())) &&
                        frame == if motionBlur then Frame(CurrentSettings(), BaseView(), w, h) else Null
      ensures !ended ==> BlurState() == old(BlurState()) && frame == Null &&
                         transform.actionEnd == old(transform.actionEnd) &&
                         transform.timers.Keys == old(transform.timers).Keys &&
                         forall id :: id in transform.timers ==>
                           transform.timers[id] == old(transform.timers)[id] - elapsed
    {
      ended := transform.Tick(elapsed);
      if ended {
        frame := OnEnd(w, h);
      } else {
        frame := Null;
      }
    }
  }

  /** A wheel event with motion blur on: 499 ms later the interaction has not ended;
      one more millisecond fires onEnd, which restores the resolution and renders a
      frame at the new zoom. */
  method WheelSession(app: App, deltaY: real, w: nat, h: nat)
    returns (early: bool, ended: bool, frame: Nullable<seq<int>>)
    requires app.Valid() && app.motionBlur && app.res == Null && 0 <= app.fractalType <= 2
    modifies app, app.transform
    ensures app.Valid() && !early && ended && frame.NonNull?
    ensures app.transform.zoom == WheelZoom(old(app.transform.zoom), deltaY, app.transform.zoomSpeed)
    ensures app.resolution == old(app.resolution) && app.res == Null
    ensures frame == Frame(app.CurrentSettings(), app.BaseView(), w, h)
  {
    var zoomed := app.Wheel(deltaY, w, h);
    var quiet;
    early, quiet := app.Tick(499, w, h);
    ended, frame := app.Tick(1, w, h);
  }

  /** A drag with motion blur on: during the drag the resolution (and so the pan
      scaling) is 0.1; the mouseup commits the offset at that scaling; 500 ms later
      onEnd restores the resolution the drag started with. */
  method DragSession(app: App, x0: real, y0: real, x1: real, y1: real, w: nat, h: nat)
    returns (blurred: real, ended: bool)
    requires app.Valid() && app.motionBlur && app.res == Null && !app.transform.mousedown && w > 0
    modifies app, app.transform
    ensures app.Valid() && ended
    ensures blurred == MotionResolution
    ensures app.transform.offsetX == old(app.transform.offsetX) + PanDelta(x0, x1, MotionResolution, app.transform.zoom, w as real)
    ensures app.transform.offsetY == old(app.transform.offsetY) + PanDelta(y0, y1, MotionResolution, app.transform.zoom, w as real)
    ensures app.resolution == old(app.resolution) && app.res == Null
  {
    app.MouseDown(x0, y0);
    var moved := app.MouseMove(x1, y1, w, h);
    blurred := app.resolution;
    app.MouseUp(x1, y1, w);
    var frame;
    ended, frame := app.Tick(DebounceMs, w, h);
  }

  /** A click with motion blur on (mousedown and mouseup with no mousemove): no update
      runs, the debounce still fires onEnd, and the resolution stays as it was. */
  method ClickSession(app: App, x: real, y: real, w: nat, h: nat) returns (ended: bool)
    requires app.Valid() && app.motionBlur && app.res == Null && !app.transform.mousedown && w > 0
    modifies app, app.transform
    ensures app.Valid() && ended
    ensures app.resolution == old(app.resolution) && app.res == Null
    ensures app.transform.offsetX == old(app.transform.offsetX) && app.transform.offsetY == old(app.transform.offsetY)
  {
    app.MouseDown(x, y);
    app.MouseUp(x, y, w);
    var frame;
    ended, frame := app.Tick(DebounceMs, w, h);
  }
}

=== FILE: jsvalues.dfy ===
/** JavaScript values the model needs beyond plain numbers. */
module JsValues {

  /** A value that may be `null` (or `undefined`, which the code tests the same way). */
  datatype Nullable<+T> = Null | NonNull(value: T)
}

=== FILE: render.dfy ===
/** Escape-time rendering (render.js): the pixel-to-plane mapping, the three escape
    loops, the colouring of an iteration count and the row-major RGBA buffer. All
    arithmetic is exact real arithmetic. */
module Render {
  import opened JsValues

  /** A point of the complex plane: x is the real part, y the imaginary part. */
  datatype Pt = Pt(x: real, y: real)

  const Origin := Pt(0.0, 0.0)

  /** |z|², the quantity every escape test compares with 4. */
  function Mag2(z: Pt): real {
    z.x * z.x + z.y * z.y
  }

  /** The comparison that keeps an orbit iterating: `xs + ys <= 4` in the Mandelbrot
      loop, `zxs + zys < 4` in both Julia loops. */
  datatype Test = AtMost | Below

  predicate Stays(test: Test, z: Pt) {
    match test
    case AtMost => Mag2(z) <= 4.0
    case Below => Mag2(z) < 4.0
  }

  /** `f` applied `k` times to `z`. */
  function Iterate(f: Pt -> Pt, z: Pt, k: nat): Pt
    decreases k
  {
    if k == 0 then z else Iterate(f, f(z), k - 1)
  }

  lemma {:induction false} IterateLast(f: Pt -> Pt, z: Pt, k: nat)
    ensures Iterate(f, z, k + 1) == f(Iterate(f, z, k))
    decreases k
  {
    if k > 0 {
      IterateLast(f, f(z), k - 1);
    }
  }

  /** The count an escape loop reports for the orbit of `z0` under `step`: the first
      `n` at which the orbit fails `test`, or `budget` if it passes `budget` times. */
  function EscapeTime(step: Pt -> Pt, test: Test, z0: Pt, budget: nat): (n: nat)
    ensures n <= budget
    ensures forall j :: 0 <= j < n ==> Stays(test, Iterate(step, z0, j))
    ensures n < budget ==> !Stays(test, Iterate(step, z0, n))
    decreases budget
  {
    if budget == 0 || !Stays(test, z0) then 0
    else 1 + EscapeTime(step, test, step(z0), budget - 1)
  }

  /** The three conditions of EscapeTime's contract determine the count. */
  lemma EscapeTimeUnique(step: Pt -> Pt, test: Test, z0: Pt, budget: nat, n: nat)
    requires n <= budget
    requires forall j :: 0 <= j < n ==> Stays(test, Iterate(step, z0, j))
    requires n < budget ==> !Stays(test, Iterate(step, z0, n))
    ensures n == EscapeTime(step, test, z0, budget)
  {
  }

  /** z ↦ z² + c in the real/imaginary decomposition the loops use. */
  function QuadStep(c: Pt): Pt -> Pt {
    (z: Pt) => Pt(z.x * z.x - z.y * z.y + c.x, 2.0 * z.x * z.y + c.y)
  }

  /** z ↦ zⁿ + c, where `power(z, n)` stands for the polar-form power that juliaN
      computes with atan2, cos, sin and `**`; it is a parameter, not a definition. */
  function PolarStep(n: real, c: Pt, power: (Pt, real) -> Pt): Pt -> Pt {
    (z: Pt) => Pt(power(z, n).x + c.x, power(z, n).y + c.y)
  }

  /** One turn of the quadratic loops: from the k-th iterate (x, y) with its squares
      xs, ys, the next iterate is (xs - ys + c.x, 2xy + c.y), and |z|² is xs + ys. */
  lemma QuadIterateStep(c: Pt, z0: Pt, k: nat, x: real, y: real, xs: real, ys: real)
    requires Pt(x, y) == Iterate(QuadStep(c), z0, k)
    requires xs == x * x && ys == y * y
    ensures Iterate(QuadStep(c), z0, k + 1) == Pt(xs - ys + c.x, 2.0 * x * y + c.y)
    ensures Mag2(Pt(x, y)) == xs + ys
  {
    IterateLast(QuadStep(c), z0, k);
  }

  /** The inner while loop of `Fractal.mandelbrot`: z starts at 0, c is the pixel. */
  method MandelbrotEscape(x0: real, y0: real, maxIter: nat) returns (iter: nat)
    ensures iter == EscapeTime(QuadStep(Pt(x0, y0)), AtMost, Origin, maxIter)
  {
    ghost var step := QuadStep(Pt(x0, y0));
    var x, y, xs, ys := 0.0, 0.0, 0.0, 0.0;
    iter := 0;
    while xs + ys <= 4.0 && iter < maxIter
      decreases maxIter - iter
      invariant iter <= maxIter
      invariant Pt(x, y) == Iterate(step, Origin, iter)
      invariant xs == x * x && ys == y * y
      invariant forall j :: 0 <= j < iter ==> Stays(AtMost, Iterate(step, Origin, j))
    {
      QuadIterateStep(Pt(x0, y0), Origin, iter, x, y, xs, ys);
      var xt := xs - ys + x0;
      y := 2.0 * x * y + y0;
      x := xt;
      xs := x * x;
      ys := y * y;
      iter := iter + 1;
    }
    assert Mag2(Pt(x, y)) == xs + ys;
    EscapeTimeUnique(step, AtMost, Origin, maxIter, iter);
  }

  /** The inner while loop of `Fractal.julia`: z starts at the pixel, c is fixed. */
  method JuliaEscape(zx0: real, zy0: real, cx: real, cy: real, maxIter: nat) returns (iter: nat)
    ensures iter == EscapeTime(QuadStep(Pt(cx, cy)), Below, Pt(zx0, zy0), maxIter)
  {
    ghost var step := QuadStep(Pt(cx, cy));
    var zx, zy := zx0, zy0;
    iter := 0;
    var zxs, zys := zx * zx, zy * zy;
    while zxs + zys < 4.0 && iter < maxIter
      decreases maxIter - iter
      invariant iter <= maxIter
      invariant Pt(zx, zy) == Iterate(step, Pt(zx0, zy0), iter)
      invariant zxs == zx * zx && zys == zy * zy
      invariant forall j :: 0 <= j < iter ==> Stays(Below, Iterate(step, Pt(zx0, zy0), j))
    {
      QuadIterateStep(Pt(cx, cy), Pt(zx0, zy0), iter, zx, zy, zxs, zys);
      var xt := zxs - zys + cx;
      zy := 2.0 * zx * zy + cy;
      zx := xt;
      iter := iter + 1;
      zxs := zx * zx;
      zys := zy * zy;
    }
    assert Mag2(Pt(zx, zy)) == zxs + zys;
    EscapeTimeUnique(step, Below, Pt(zx0, zy0), maxIter, iter);
  }

  /** The inner while loop of `Fractal.juliaN`, with the polar power abstracted. */
  method JuliaNEscape(zx0: real, zy0: real, n: real, cx: real, cy: real,
                      power: (Pt, real) -> Pt, maxIter: nat) returns (iter: nat)
    ensures iter == EscapeTime(PolarStep(n, Pt(cx, cy), power), Below, Pt(zx0, zy0), maxIter)
  {
    ghost var step := PolarStep(n, Pt(cx, cy), power);
    var zx, zy := zx0, zy0;
    iter := 0;
    var zxs, zys := zx * zx, zy * zy;
    while zxs + zys < 4.0 && iter < maxIter
      decreases maxIter - iter
      invariant iter <= maxIter
      invariant Pt(zx, zy) == Iterate(step, Pt(zx0, zy0), iter)
      invariant zxs == zx * zx && zys == zy * zy
      invariant forall j :: 0 <= j < iter ==> Stays(Below, Iterate(step, Pt(zx0, zy0), j))
    {
      ghost var z := Pt(zx, zy);
      assert Stays(Below, z) by { assert Mag2(z) == zxs + zys; }
      IterateLast(step, Pt(zx0, zy0), iter);
      var p := power(Pt(zx, zy), n);
      var xt := p.x + cx;
      zy := p.y + cy;
      zx := xt;
      assert Pt(zx, zy) == step(z);
      iter := iter + 1;
      zxs := zx * zx;
      zys := zy * zy;
    }
    assert Mag2(Pt(zx, zy)) == zxs + zys;
    EscapeTimeUnique(step, Below, Pt(zx0, zy0), maxIter, iter);
  }

  /** The three fractals; the arguments are those the render functions take besides the view. */
  datatype Fractal =
    | MandelbrotSet
    | JuliaSet(c: Pt)
    | JuliaNSet(n: real, c: Pt, power: (Pt, real) -> Pt)

  /** The count the escape loop of fractal `f` reports at plane point `p`. */
  function EscapeAt(f: Fractal, p: Pt, maxIter: nat): (n: nat)
    ensures n <= maxIter
  {
    match f
    case MandelbrotSet => EscapeTime(QuadStep(p), AtMost, Origin, maxIter)
    case JuliaSet(c) => EscapeTime(QuadStep(c), Below, p, maxIter)
    case JuliaNSet(n, c, power) => EscapeTime(PolarStep(n, c, power), Below, p, maxIter)
  }

  method Escape(f: Fractal, p: Pt, maxIter: nat) returns (iter: nat)
    ensures iter == EscapeAt(f, p, maxIter)
  {
    match f {
      case MandelbrotSet =>
        iter := MandelbrotEscape(p.x, p.y, maxIter);
      case JuliaSet(c) =>
        iter := JuliaEscape(p.x, p.y, c.x, c.y, maxIter);
      case JuliaNSet(n, c, power) =>
        iter := JuliaNEscape(p.x, p.y, n, c.x, c.y, power, maxIter);
    }
  }

  lemma {:induction false} OriginFixed(k: nat)
    ensures Iterate(QuadStep(Origin), Origin, k) == Origin
  {
    if k > 0 {
      OriginFixed(k - 1);
      IterateLast(QuadStep(Origin), Origin, k - 1);
    }
  }

  /** c = 0 keeps x = y = 0, so the Mandelbrot loop runs to the bound. */
  lemma MandelbrotOriginNeverEscapes(maxIter: nat)
    ensures EscapeAt(MandelbrotSet, Origin, maxIter) == maxIter
  {
    var n := EscapeAt(MandelbrotSet, Origin, maxIter);
    if n < maxIter {
      OriginFixed(n);
    }
  }

  /** The orbit of 0 under z² + 2 is 0, 2, 6: |2|² = 4 still passes the non-strict
      test, so the count is 2 whenever the bound allows it. */
  lemma MandelbrotTwoEscapesAtTwo(maxIter: nat)
    ensures EscapeAt(MandelbrotSet, Pt(2.0, 0.0), maxIter) == if maxIter < 2 then maxIter else 2
  {
    var step := QuadStep(Pt(2.0, 0.0));
    IterateLast(step, Origin, 0);
    IterateLast(step, Origin, 1);
    assert Iterate(step, Origin, 1) == Pt(2.0, 0.0);
    assert Iterate(step, Origin, 2) == Pt(6.0, 0.0);
    var n := if maxIter < 2 then maxIter else 2;
    assert forall j :: 0 <= j < n ==> Stays(AtMost, Iterate(step, Origin, j)) by {
      forall j | 0 <= j < n ensures Stays(AtMost, Iterate(step, Origin, j)) {
        assert j == 0 || j == 1;
      }
    }
    EscapeTimeUnique(step, AtMost, Origin, maxIter, n);
  }

  /** Mandelbrot's first test sees xs = ys = 0, so one iteration always runs. */
  lemma MandelbrotIteratesOnce(p: Pt, maxIter: nat)
    requires maxIter >= 1
    ensures EscapeAt(MandelbrotSet, p, maxIter) >= 1
  {
    assert Iterate(QuadStep(p), Origin, 0) == Origin;
  }

  /** Both Julia loops test `< 4` before the first step: a start on or outside the
      circle of radius 2 reports 0. */
  lemma JuliaStartOutside(f: Fractal, p: Pt, maxIter: nat)
    requires f.JuliaSet? || f.JuliaNSet?
    requires Mag2(p) >= 4.0
    ensures EscapeAt(f, p, maxIter) == 0
  {
    match f {
      case JuliaSet(c) =>
        assert Iterate(QuadStep(c), p, 0) == p;
      case JuliaNSet(n, c, power) =>
        assert Iterate(PolarStep(n, c, power), p, 0) == p;
    }
  }

  // ---------------------------------------------------------------------------
  // The pixel-to-plane mapping

  /** The fixed plane window: 3.5 wide starting 2.5 left of the origin, 2 high
      starting 1 above it. */
  const PlaneWidth := 3.5
  const PlaneLeft := 2.5
  const PlaneHeight := 2.0
  const PlaneTop := 1.0

  /** `coord` of the render functions: pixel `x` of an axis of `w` pixels, window
      width `a` and bias `b`, under `zoom` and offset `o`. */
  function Coord(zoom: real, x: real, o: real, w: real, a: real, b: real): (r: real)
    requires w != 0.0
    ensures zoom == 0.0 ==> r == o * a - b
  {
    (((x / w) * a) - b) * zoom + (o * a) - b
  }

  /** `w` pixels span `a * zoom` plane units, wherever they start. */
  lemma CoordSpan(zoom: real, x: real, o: real, w: real, a: real, b: real)
    requires w != 0.0
    ensures Coord(zoom, x + w, o, w, a, b) - Coord(zoom, x, o, w, a, b) == a * zoom
  {
    assert (x + w) / w == x / w + w / w;
    assert w / w == 1.0;
  }

  /** With a positive zoom, pixel order is plane order. */
  lemma CoordIncreasing(zoom: real, x1: real, x2: real, o: real, w: real, a: real, b: real)
    requires w > 0.0 && a > 0.0 && zoom > 0.0 && x1 < x2
    ensures Coord(zoom, x1, o, w, a, b) < Coord(zoom, x2, o, w, a, b)
  {
    assert x1 / w < x2 / w;
    assert (x1 / w) * a < (x2 / w) * a;
    assert ((x1 / w) * a - b) * zoom < ((x2 / w) * a - b) * zoom;
  }

  /** The zoom and offset a frame is rendered with. */
  datatype View = View(zoom: real, xo: real, yo: real)

  /** The plane point of pixel (px, py) in a w × h image. */
  function PlanePoint(v: View, px: nat, py: nat, w: nat, h: nat): (p: Pt)
    requires w > 0 && h > 0
    ensures px == 0 && py == 0 ==>
      p == Pt(v.xo * PlaneWidth - PlaneLeft - PlaneLeft * v.zoom, v.yo * PlaneHeight - PlaneTop - PlaneTop * v.zoom)
    ensures v.zoom == 0.0 ==> p == Pt(v.xo * PlaneWidth - PlaneLeft, v.yo * PlaneHeight - PlaneTop)
  {
    Pt(Coord(v.zoom, px as real, v.xo, w as real, PlaneWidth, PlaneLeft),
       Coord(v.zoom, py as real, v.yo, h as real, PlaneHeight, PlaneTop))
  }

  /** Zoom 0 collapses the whole image onto one plane point. */
  lemma ZeroZoomCollapses(v: View, px: nat, py: nat, w: nat, h: nat)
    requires w > 0 && h > 0 && v.zoom == 0.0
    ensures PlanePoint(v, px, py, w, h) == Pt(v.xo * PlaneWidth - PlaneLeft, v.yo * PlaneHeight - PlaneTop)
  {
  }

  // ---------------------------------------------------------------------------
  // Colour

  /** The colour callback: iteration count to a JavaScript array of channel values. */
  type ColorFn = nat -> seq<real>

  /** The default colour's value, `255 - (255 / max_iter) * i`. */
  function DefaultShade(maxIter: nat, i: nat): (v: real)
    requires maxIter > 0
    ensures i == 0 ==> v == 255.0
    ensures i == maxIter ==> v == 0.0
    ensures i <= maxIter ==> 0.0 <= v <= 255.0
  {
    255.0 - (255.0 / maxIter as real) * i as real
  }

  lemma DefaultShadeNonIncreasing(maxIter: nat, i: nat, j: nat)
    requires maxIter > 0 && i <= j
    ensures DefaultShade(maxIter, j) <= DefaultShade(maxIter, i)
  {
    var s := 255.0 / maxIter as real;
    assert s * maxIter as real == 255.0;
    assert s > 0.0;
    var d := (j - i) as real;
    assert s * j as real == s * i as real + s * d;
    assert s * d >= 0.0;
  }

  /** A grey colour array [v, v, v]. */
  function Gray(v: real): (c: seq<real>)
    ensures |c| == 3 && c[0] == c[1] == c[2] == v
  {
    [v, v, v]
  }

  /** The colour closure the render functions build when no colour is given. */
  function DefaultColor(maxIter: nat): (f: ColorFn)
    requires maxIter > 0
    ensures f(0) == [255.0, 255.0, 255.0] && f(maxIter) == [0.0, 0.0, 0.0]
    ensures forall i: nat :: i <= maxIter ==>
      |f(i)| == 3 && f(i)[0] == f(i)[1] == f(i)[2] && 0.0 <= f(i)[0] <= 255.0
  {
    (i: nat) => Gray(DefaultShade(maxIter, i))
  }

  /** `if (color == null) color = <default>`. */
  function ResolveColor(color: Nullable<ColorFn>, maxIter: nat): (f: ColorFn)
    requires color.NonNull? || maxIter > 0
    ensures color.NonNull? ==> forall i: nat :: f(i) == color.value(i)
    ensures color.Null? ==> f(0) == [255.0, 255.0, 255.0] && f(maxIter) == [0.0, 0.0, 0.0]
    ensures color.Null? ==> forall i: nat :: i <= maxIter ==>
      |f(i)| == 3 && f(i)[0] == f(i)[1] == f(i)[2] && 0.0 <= f(i)[0] <= 255.0
  {
    match color
    case NonNull(f) => f
    case Null => DefaultColor(maxIter)
  }

  /** Storing a number into a Uint8ClampedArray (ECMAScript ToUint8Clamp for a
      number that is not NaN): clamp to [0, 255], then round half to even. */
  function ToClampedByte(v: real): (b: int)
    ensures 0 <= b <= 255
    ensures v <= 0.0 ==> b == 0
    ensures v >= 255.0 ==> b == 255
    ensures 0.0 <= v <= 255.0 ==> -0.5 <= b as real - v <= 0.5
    ensures 0.0 <= v <= 255.0 && v == v.Floor as real ==> b == v.Floor
  {
    if v <= 0.0 then 0
    else if v >= 255.0 then 255
    else
      var f := v.Floor;
      if f as real + 0.5 < v then f + 1
      else if v < f as real + 0.5 then f
      else if f % 2 == 1 then f + 1
      else f
  }

  /** A colour channel: a missing array element is `undefined`, which stores as 0. */
  function Channel(c: seq<real>, k: nat): (b: int)
    ensures 0 <= b <= 255
    ensures k >= |c| ==> b == 0
    ensures k < |c| && c[k] >= 255.0 ==> b == 255
  {
    if k < |c| then ToClampedByte(c[k]) else 0
  }

  /** The alpha byte as render.js:53 computes it: element 4 (a fifth channel), 255
      when that element is missing. */
  function AlphaAsWritten(c: seq<real>): (a: int)
    ensures 0 <= a <= 255
    ensures |c| <= 4 ==> a == 255
  {
    if |c| > 4 then ToClampedByte(c[4]) else 255
  }

  /** The alpha byte as intended: a supplied fourth channel, 255 when there is none. */
  function Alpha(c: seq<real>): (a: int)
    ensures 0 <= a <= 255
    ensures |c| <= 3 ==> a == 255
  {
    if |c| > 3 then ToClampedByte(c[3]) else 255
  }

  /** A colour [r, g, b, a] loses its alpha as written, keeps it as intended. */
  lemma FourthChannelIgnored()
    ensures AlphaAsWritten([0.0, 0.0, 0.0, 128.0]) == 255
    ensures Alpha([0.0, 0.0, 0.0, 128.0]) == 128
  {
    assert 128.0.Floor == 128;
  }

  /** For the three-channel colours this program builds, both readings give 255. */
  lemma AlphaAgreesOnThreeChannels(c: seq<real>)
    requires |c| <= 3
    ensures AlphaAsWritten(c) == Alpha(c) == 255
  {
  }

  /** The four bytes written for one pixel. */
  function PixelBytes(c: seq<real>): (p: seq<int>)
    ensures |p| == 4
    ensures forall k :: 0 <= k < 4 ==> 0 <= p[k] <= 255
    ensures forall k :: 0 <= k < 3 ==> p[k] == (if k < |c| then ToClampedByte(c[k]) else 0)
    ensures p[3] == (if |c| >= 4 then ToClampedByte(c[3]) else 255)
  {
    [Channel(c, 0), Channel(c, 1), Channel(c, 2), Alpha(c)]
  }

  /** A grey colour gives three equal channels and an opaque alpha. */
  lemma GrayPixelOpaque(v: real)
    ensures PixelBytes(Gray(v))[3] == 255
    ensures PixelBytes(Gray(v))[0] == PixelBytes(Gray(v))[1] == PixelBytes(Gray(v))[2] == ToClampedByte(v)
  {
  }

  // ---------------------------------------------------------------------------
  // Buffer layout

  /** `idx = (py * (width * 4)) + (px * 4)`. */
  function PixelIndex(px: nat, py: nat, w: nat): (idx: nat)
    ensures idx % 4 == 0
    ensures px < w ==> 4 * w * py <= idx < 4 * w * (py + 1)
  {
    assert py * (w * 4) == 4 * w * py == 4 * (py * w);
    assert 4 * w * (py + 1) == 4 * w * py + 4 * w;
    assert (py * (w * 4)) + (px * 4) == 4 * (py * w + px);
    (py * (w * 4)) + (px * 4)
  }

  /** The column of the pixel that byte `j` belongs to. */
  function PixelX(j: nat, w: nat): nat
    requires w > 0
  {
    (j / 4) % w
  }

  /** The row of the pixel that byte `j` belongs to. */
  function PixelY(j: nat, w: nat): nat
    requires w > 0
  {
    (j / 4) / w
  }

  lemma MulAtLeast(d: int, w: int)
    requires d >= 1 && w > 0
    ensures d * w >= w
  {
  }

  lemma MulMonotone(a: int, b: int, c: int)
    requires a <= b && c >= 0
    ensures a * c <= b * c
  {
  }

  lemma DivModUnique(a: int, w: int, q: int, r: int)
    requires w > 0 && 0 <= r < w && a == q * w + r
    ensures a / w == q && a % w == r
  {
    var q', r' := a / w, a % w;
    assert a == q' * w + r';
    assert (q - q') * w == r' - r;
    if q > q' {
      MulAtLeast(q - q', w);
    } else if q < q' {
      MulAtLeast(q' - q, w);
    }
  }

  /** Every in-bounds pixel's four bytes lie inside the 4·w·h buffer. */
  lemma PixelIndexInBounds(px: nat, py: nat, w: nat, h: nat)
    requires px < w && py < h
    ensures PixelIndex(px, py, w) + 3 < 4 * w * h
  {
    MulMonotone(py, h - 1, w);
    assert PixelIndex(px, py, w) == 4 * (py * w + px);
    assert (h - 1) * w + w == h * w;
    assert 4 * w * h == 4 * (h * w);
  }

  /** Byte `k` of pixel (px, py) decodes back to that pixel and channel. */
  lemma PixelIndexDecode(px: nat, py: nat, w: nat, k: nat)
    requires px < w && k < 4
    ensures PixelX(PixelIndex(px, py, w) + k, w) == px
    ensures PixelY(PixelIndex(px, py, w) + k, w) == py
    ensures (PixelIndex(px, py, w) + k) % 4 == k
  {
    var j := PixelIndex(px, py, w) + k;
    assert j == 4 * (py * w + px) + k;
    DivModUnique(j, 4, py * w + px, k);
    DivModUnique(py * w + px, w, py, px);
  }

  /** Every byte of the buffer belongs to an in-bounds pixel. */
  lemma PixelIndexCovers(j: nat, w: nat, h: nat)
    requires w > 0 && j < 4 * w * h
    ensures PixelX(j, w) < w && PixelY(j, w) < h
    ensures j == PixelIndex(PixelX(j, w), PixelY(j, w), w) + j % 4
  {
    var p := j / 4;
    assert j == 4 * p + j % 4;
    assert p < w * h;
    assert p == w * (p / w) + p % w;
  }

  /** Distinct pixels never share a byte. */
  lemma PixelIndexDisjoint(px1: nat, py1: nat, px2: nat, py2: nat, w: nat, k1: nat, k2: nat)
    requires px1 < w && px2 < w && k1 < 4 && k2 < 4
    requires px1 != px2 || py1 != py2
    ensures PixelIndex(px1, py1, w) + k1 != PixelIndex(px2, py2, w) + k2
  {
    PixelIndexDecode(px1, py1, w, k1);
    PixelIndexDecode(px2, py2, w, k2);
  }

  // ---------------------------------------------------------------------------
  // The frame

  /** The whole RGBA buffer a render function leaves behind: byte j holds channel
      j % 4 of the colour of the pixel it belongs to. */
  function Image(f: Fractal, v: View, w: nat, h: nat, maxIter: nat, color: ColorFn): (img: seq<int>)
    ensures |img| == 4 * w * h
  {
    if w == 0 || h == 0 then []
    else
      seq(4 * w * h, j requires 0 <= j < 4 * w * h =>
        PixelBytes(color(EscapeAt(f, PlanePoint(v, PixelX(j, w), PixelY(j, w), w, h), maxIter)))[j % 4])
  }

  /** What the buffer holds at pixel (px, py): byte k of its colour. */
  lemma ImageAt(f: Fractal, v: View, w: nat, h: nat, maxIter: nat, color: ColorFn,
                px: nat, py: nat, k: nat)
    requires px < w && py < h && k < 4
    ensures PixelIndex(px, py, w) + k < |Image(f, v, w, h, maxIter, color)|
    ensures Image(f, v, w, h, maxIter, color)[PixelIndex(px, py, w) + k]
         == PixelBytes(color(EscapeAt(f, PlanePoint(v, px, py, w, h), maxIter)))[k]
  {
    PixelIndexInBounds(px, py, w, h);
    PixelIndexDecode(px, py, w, k);
  }

  /** Bytes that the column-major pixel loops have written before pixel (px, py). */
  ghost predicate Done(j: nat, w: nat, px: nat, py: nat)
    requires w > 0
  {
    PixelX(j, w) < px || (PixelX(j, w) == px && PixelY(j, w) < py)
  }

  /** Writing the four bytes of pixel (px, py) extends the written region by that pixel. */
  lemma PixelStep(before: seq<int>, after: seq<int>, img: seq<int>, w: nat, h: nat, px: nat, py: nat)
    requires px < w && py < h
    requires |before| == |after| == |img| == 4 * w * h
    requires forall j :: 0 <= j < |before| && Done(j, w, px, py) ==> before[j] == img[j]
    requires forall j :: 0 <= j < |after| && PixelIndex(px, py, w) <= j < PixelIndex(px, py, w) + 4 ==>
               after[j] == img[j]
    requires forall j :: 0 <= j < |after| && !(PixelIndex(px, py, w) <= j < PixelIndex(px, py, w) + 4) ==>
               after[j] == before[j]
    ensures forall j :: 0 <= j < |after| && Done(j, w, px, py + 1) ==> after[j] == img[j]
  {
    forall j | 0 <= j < |after| && Done(j, w, px, py + 1) ensures after[j] == img[j] {
      PixelIndexCovers(j, w, h);
    }
  }

  /** Once every row of column px is written, the whole column is. */
  lemma ColumnStep(data: seq<int>, img: seq<int>, w: nat, h: nat, px: nat)
    requires px < w && |data| == |img| == 4 * w * h
    requires forall j :: 0 <= j < |data| && Done(j, w, px, h) ==> data[j] == img[j]
    ensures forall j :: 0 <= j < |data| && PixelX(j, w) < px + 1 ==> data[j] == img[j]
  {
    forall j | 0 <= j < |data| && PixelX(j, w) < px + 1 ensures data[j] == img[j] {
      PixelIndexCovers(j, w, h);
    }
  }

  /** The four byte writes of one pixel, `imgdata.data[idx + k] = ...`. */
  method WritePixel(data: array<int>, idx: nat, c: seq<int>)
    requires |c| == 4 && idx + 4 <= data.Length
    modifies data
    ensures forall j :: 0 <= j < data.Length && idx <= j < idx + 4 ==> data[j] == c[j - idx]
    ensures forall j :: 0 <= j < data.Length && !(idx <= j < idx + 4) ==> data[j] == old(data[j])
  {
    data[idx] := c[0];
    data[idx + 1] := c[1];
    data[idx + 2] := c[2];
    data[idx + 3] := c[3];
  }

  /** Once every column is written, the whole buffer is the image. */
  lemma AllColumnsDone(data: seq<int>, img: seq<int>, w: nat, h: nat)
    requires w > 0 && |data| == |img| == 4 * w * h
    requires forall j :: 0 <= j < |data| && PixelX(j, w) < w ==> data[j] == img[j]
    ensures data == img
  {
    forall j | 0 <= j < |data| ensures data[j] == img[j] {
      PixelIndexCovers(j, w, h);
    }
  }

  /** One turn of the inner pixel loop: the escape count at (x0, y0), its colour, and
      the four byte writes at `idx`. */
  method DrawPixel(f: Fractal, v: View, w: nat, h: nat, maxIter: nat, color: ColorFn,
                   data: array<int>, ghost img: seq<int>, x0: real, px: nat, py: nat)
    requires px < w && py < h && data.Length == 4 * w * h
    requires img == Image(f, v, w, h, maxIter, color)
    requires x0 == Coord(v.zoom, px as real, v.xo, w as real, PlaneWidth, PlaneLeft)
    requires forall j :: 0 <= j < data.Length && Done(j, w, px, py) ==> data[j] == img[j]
    modifies data
    ensures forall j :: 0 <= j < data.Length && Done(j, w, px, py + 1) ==> data[j] == img[j]
    ensures forall j :: 0 <= j < data.Length && !(PixelIndex(px, py, w) <= j < PixelIndex(px, py, w) + 4) ==>
              data[j] == old(data[j])
  {
    var y0 := Coord(v.zoom, py as real, v.yo, h as real, PlaneHeight, PlaneTop);
    var iter := Escape(f, Pt(x0, y0), maxIter);
    var c := PixelBytes(color(iter));
    var idx := (py * (w * 4)) + (px * 4);
    PixelIndexInBounds(px, py, w, h);
    forall k | 0 <= k < 4 ensures img[idx + k] == c[k] {
      ImageAt(f, v, w, h, maxIter, color, px, py, k);
    }
    ghost var before := data[..];
    WritePixel(data, idx, c);
    PixelStep(before, data[..], img, w, h, px, py);
  }

  /** The nested pixel loops the three render functions share: columns outside,
      rows inside, one escape loop and four byte writes per pixel. */
  method RenderFrame(f: Fractal, v: View, w: nat, h: nat, maxIter: nat, color: ColorFn)
    returns (data: array<int>)
    ensures fresh(data)
    ensures data[..] == Image(f, v, w, h, maxIter, color)
  {
    data := new int[4 * w * h](_ => 0);
    if w == 0 || h == 0 {
      return;
    }
    ghost var img := Image(f, v, w, h, maxIter, color);
    var px := 0;
    while px < w
      invariant 0 <= px <= w
      invariant forall j :: 0 <= j < data.Length && PixelX(j, w) < px ==> data[j] == img[j]
    {
      var x0 := Coord(v.zoom, px as real, v.xo, w as real, PlaneWidth, PlaneLeft);
      var py := 0;
      while py < h
        invariant 0 <= py <= h
        invariant forall j :: 0 <= j < data.Length && Done(j, w, px, py) ==> data[j] == img[j]
      {
        DrawPixel(f, v, w, h, maxIter, color, data, img, x0, px, py);
        py := py + 1;
      }
      ColumnStep(data[..], img, w, h, px);
      px := px + 1;
    }
    AllColumnsDone(data[..], img, w, h);
  }

  /** `Fractal.mandelbrot`. */
  method Mandelbrot(zoom: real, xo: real, yo: real, w: nat, h: nat, maxIter: nat,
                    color: Nullable<ColorFn>) returns (data: array<int>)
    requires color.NonNull? || maxIter > 0
    ensures fresh(data)
    ensures data[..] == Image(MandelbrotSet, View(zoom, xo, yo), w, h, maxIter, ResolveColor(color, maxIter))
  {
    data := RenderFrame(MandelbrotSet, View(zoom, xo, yo), w, h, maxIter, ResolveColor(color, maxIter));
  }

  /** `Fractal.julia`. */
  method Julia(zoom: real, xo: real, yo: real, w: nat, h: nat, maxIter: nat,
               color: Nullable<ColorFn>, cx: real, cy: real) returns (data: array<int>)
    requires color.NonNull? || maxIter > 0
    ensures fresh(data)
    ensures data[..] == Image(JuliaSet(Pt(cx, cy)), View(zoom, xo, yo), w, h, maxIter, ResolveColor(color, maxIter))
  {
    data := RenderFrame(JuliaSet(Pt(cx, cy)), View(zoom, xo, yo), w, h, maxIter, ResolveColor(color, maxIter));
  }

  /** `Fractal.juliaN`, with the polar power as the parameter `power`. */
  method JuliaN(zoom: real, xo: real, yo: real, w: nat, h: nat, maxIter: nat,
                color: Nullable<ColorFn>, n: real, cx: real, cy: real,
                power: (Pt, real) -> Pt) returns (data: array<int>)
    requires color.NonNull? || maxIter > 0
    ensures fresh(data)
    ensures data[..] == Image(JuliaNSet(n, Pt(cx, cy), power), View(zoom, xo, yo), w, h, maxIter,
                              ResolveColor(color, maxIter))
  {
    data := RenderFrame(JuliaNSet(n, Pt(cx, cy), power), View(zoom, xo, yo), w, h, maxIter,
                        ResolveColor(color, maxIter));
  }
}

=== FILE: transform.dfy ===
/** The drag-and-zoom controller of ui.js (`UI.createTransformContext`): the
    transformation object, the closure state of its listeners, and the browser's
    timeout table that `setTimeout` and `clearTimeout` act on. */
module Transform {
  import opened JsValues

  /** The debounce delay, in milliseconds, after which `onEnd` runs. */
  const DebounceMs: nat := 500

  /** The zoom change per wheel event, before `zoomSpeed`. */
  const ZoomStep := 0.03

  /** `Math.sign` on a number that is not NaN. */
  function Sign(x: real): (s: real)
    ensures s == 1.0 || s == 0.0 || s == -1.0
    ensures (s > 0.0 <==> x > 0.0) && (s < 0.0 <==> x < 0.0)
  {
    if x > 0.0 then 1.0 else if x < 0.0 then -1.0 else 0.0
  }

  function Max(a: real, b: real): real {
    if a >= b then a else b
  }

  lemma ScaleSign(zoom: real, k: real)
    ensures zoom > 0.0 && -1.0 < k < 1.0 ==> zoom + k * zoom > 0.0
    ensures zoom >= 0.0 && k >= 0.0 ==> k * zoom >= 0.0
    ensures zoom >= 0.0 && k <= 0.0 ==> k * zoom <= 0.0
  {
    if zoom > 0.0 && -1.0 < k < 1.0 {
      assert zoom + k * zoom == zoom * (1.0 + k);
    }
  }

  lemma SignedStep(deltaY: real, zoomSpeed: real)
    ensures Sign(deltaY) * ZoomStep * zoomSpeed ==
      if deltaY > 0.0 then ZoomStep * zoomSpeed
      else if deltaY < 0.0 then -(ZoomStep * zoomSpeed)
      else 0.0
  {
    if deltaY > 0.0 {
      assert Sign(deltaY) == 1.0;
    } else if deltaY < 0.0 {
      assert Sign(deltaY) == -1.0;
    } else {
      assert Sign(deltaY) == 0.0;
    }
  }

  /** The zoom a wheel event commits: `max(zoom + sign(deltaY) * 0.03 * zoomSpeed * zoom, 0)`. */
  function WheelZoom(zoom: real, deltaY: real, zoomSpeed: real): (z: real)
    ensures z >= 0.0
    ensures zoom >= 0.0 && deltaY == 0.0 ==> z == zoom
    ensures zoom > 0.0 && -1.0 < ZoomStep * zoomSpeed < 1.0 ==> z > 0.0
    ensures zoom >= 0.0 && zoomSpeed >= 0.0 && deltaY > 0.0 ==> z >= zoom
    ensures zoom >= 0.0 && zoomSpeed >= 0.0 && deltaY < 0.0 ==> z <= zoom
  {
    var k := Sign(deltaY) * ZoomStep * zoomSpeed;
    SignedStep(deltaY, zoomSpeed);
    ScaleSign(zoom, k);
    Max(zoom + k * zoom, 0.0)
  }

  /** The offset change of a drag from `down` to `client` on one axis:
      `(down - client) * resolutionOffset * zoom / element.width`. */
  function PanDelta(down: real, client: real, resolutionOffset: real, zoom: real, width: real): (d: real)
    requires width != 0.0
    ensures down == client ==> d == 0.0
    ensures width > 0.0 && resolutionOffset > 0.0 && zoom > 0.0 ==> (d > 0.0 <==> down > client)
  {
    var m := resolutionOffset * zoom;
    assert width > 0.0 && m > 0.0 ==> ((down - client) * m / width > 0.0 <==> down > client) by {
      if width > 0.0 && m > 0.0 {
        if down > client {
          assert (down - client) * m > 0.0;
        } else {
          assert (down - client) * m <= 0.0;
        }
      }
    }
    (down - client) * resolutionOffset * zoom / width
  }

  /** A handle held in `actionEnd`: `null`, or the id `setTimeout` returned. */
  datatype Handle = NoTimer | Timer(id: nat)

  function HandleIds(h: Handle): set<nat> {
    match h
    case NoTimer => {}
    case Timer(id) => {id}
  }

  /** Timeouts whose ids all lie in the slot's one id: at most one is pending. */
  lemma AtMostOnePending(timers: map<nat, nat>, h: Handle)
    requires timers.Keys <= HandleIds(h)
    ensures |timers| <= 1
  {
    if h.Timer? && h.id in timers {
      assert timers.Keys == {h.id};
      assert |timers.Keys| == 1;
    } else {
      assert timers.Keys == {};
    }
  }

  /** The transformation a mousemove emits without committing it. */
  datatype Candidate = Candidate(zoom: real, offsetX: real, offsetY: real)

  class TransformContext {
    // the transformation object
    var zoom: real
    var offsetX: real
    var offsetY: real
    var resolutionOffset: real
    var zoomSpeed: real
    // the listeners' closure state
    var mousedown: bool
    var downX: real
    var downY: real
    var actionEnd: Handle
    // the browser's pending timeouts, id to milliseconds left, and its next id
    var timers: map<nat, nat>
    var nextTimerId: nat

    /** The only pending timeout, if any, is the one `actionEnd` names, and zoom is
        never negative. */
    ghost predicate Valid()
      reads this
    {
      zoom >= 0.0 &&
      timers.Keys <= HandleIds(actionEnd) &&
      (forall id :: id in timers ==> id < nextTimerId)
    }

    /** `UI.createTransformContext(element, offset, resolutionOffset, updateCB)`. */
    constructor (offset: Nullable<(real, real)>, resolutionOffset: real)
      ensures Valid()
      ensures zoom == 1.0 && zoomSpeed == 1.0
      ensures (offsetX, offsetY) == (if offset.NonNull? then offset.value else (0.0, 0.0))
      ensures this.resolutionOffset == resolutionOffset
      ensures !mousedown && downX == 0.0 && downY == 0.0
      ensures actionEnd == NoTimer && timers == map[]
    {
      zoom := 1.0;
      match offset {
        case NonNull(o) => offsetX, offsetY := o.0, o.1;
        case Null => offsetX, offsetY := 0.0, 0.0;
      }
      this.resolutionOffset := resolutionOffset;
      zoomSpeed := 1.0;
      mousedown := false;
      downX, downY := 0.0, 0.0;
      actionEnd := NoTimer;
      timers := map[];
      nextTimerId := 1;
    }

    /** `transformation.updateResolution(res)`. */
    method UpdateResolution(res: real)
      modifies this`resolutionOffset
      ensures resolutionOffset == res
    {
      resolutionOffset := res;
    }

    /** `clearTimeout(actionEnd)` when `actionEnd != null`. */
    method CancelActionEnd()
      requires Valid()
      modifies this`timers
      ensures Valid()
      ensures timers == map[]
    {
      if actionEnd != NoTimer {
        timers := timers - {actionEnd.id};
      }
      assert timers.Keys <= {};
    }

    /** Cancel any pending timeout, then `actionEnd = setTimeout(..., 500)`. */
    method RearmActionEnd()
      requires Valid()
      modifies this`timers, this`actionEnd, this`nextTimerId
      ensures Valid()
      ensures actionEnd == Timer(old(nextTimerId)) && timers == map[old(nextTimerId) := DebounceMs]
      ensures nextTimerId == old(nextTimerId) + 1
    {
      CancelActionEnd();
      actionEnd := Timer(nextTimerId);
      timers := timers[nextTimerId := DebounceMs];
      nextTimerId := nextTimerId + 1;
    }

    /** The wheel listener: zoom is committed at once and the debounce re-armed.
        The listener then calls `updateCB(transformation)`, which App.Wheel runs. */
    method Wheel(deltaY: real)
      requires Valid()
      modifies this`zoom, this`timers, this`actionEnd, this`nextTimerId
      ensures Valid()
      ensures zoom == WheelZoom(old(zoom), deltaY, zoomSpeed)
      ensures actionEnd == Timer(old(nextTimerId)) && timers == map[old(nextTimerId) := DebounceMs]
      ensures nextTimerId == old(nextTimerId) + 1
    {
      zoom := WheelZoom(zoom, deltaY, zoomSpeed);
      RearmActionEnd();
    }

    /** The mousedown listener: a drag starts and any pending debounce is cancelled,
        not re-armed; `actionEnd` keeps the stale id, as in ui.js:48. */
    method MouseDown(clientX: real, clientY: real)
      requires Valid()
      modifies this`mousedown, this`downX, this`downY, this`timers
      ensures Valid()
      ensures mousedown && downX == clientX && downY == clientY
      ensures timers == map[]
    {
      mousedown := true;
      downX, downY := clientX, clientY;
      CancelActionEnd();
    }

    /** The mouseup listener: after a drag, the drag's offset delta is committed and
        the debounce re-armed; with no drag in progress nothing changes. Both axes
        divide by the element's width. */
    method MouseUp(clientX: real, clientY: real, elementWidth: nat)
      requires Valid() && elementWidth > 0
      modifies this`offsetX, this`offsetY, this`mousedown, this`timers, this`actionEnd, this`nextTimerId
      ensures Valid()
      ensures !mousedown
      ensures old(mousedown) ==>
        offsetX == old(offsetX) + PanDelta(downX, clientX, resolutionOffset, zoom, elementWidth as real) &&
        offsetY == old(offsetY) + PanDelta(downY, clientY, resolutionOffset, zoom, elementWidth as real) &&
        actionEnd == Timer(old(nextTimerId)) && timers == map[old(nextTimerId) := DebounceMs] &&
        nextTimerId == old(nextTimerId) + 1
      ensures !old(mousedown) ==>
        offsetX == old(offsetX) && offsetY == old(offsetY) &&
        actionEnd == old(actionEnd) && timers == old(timers) && nextTimerId == old(nextTimerId)
    {
      if mousedown {
        offsetX := offsetX + PanDelta(downX, clientX, resolutionOffset, zoom, elementWidth as real);
        offsetY := offsetY + PanDelta(downY, clientY, resolutionOffset, zoom, elementWidth as real);
        RearmActionEnd();
        mousedown := false;
      }
    }

    /** The mousemove listener: while dragging, the candidate offset it passes to
        `updateCB`; otherwise nothing. It commits nothing. */
    method MouseMove(clientX: real, clientY: real, elementWidth: nat) returns (emitted: Nullable<Candidate>)
      requires elementWidth > 0
      ensures !mousedown ==> emitted == Null
      ensures mousedown ==> emitted == NonNull(Candidate(zoom,
        offsetX + PanDelta(downX, clientX, resolutionOffset, zoom, elementWidth as real),
        offsetY + PanDelta(downY, clientY, resolutionOffset, zoom, elementWidth as real)))
    {
      if mousedown {
        emitted := NonNull(Candidate(zoom,
          offsetX + PanDelta(downX, clientX, resolutionOffset, zoom, elementWidth as real),
          offsetY + PanDelta(downY, clientY, resolutionOffset, zoom, elementWidth as real)));
      } else {
        emitted := Null;
      }
    }

    /** `elapsed` milliseconds pass on the browser's clock. The pending timeout fires
        once its delay is used up: `fired` says that the callback runs (it calls
        `onEnd`, which App.Tick runs, and sets `actionEnd = null`). */
    method Tick(elapsed: nat) returns (fired: bool)
      requires Valid()
      modifies this`timers, this`actionEnd
      ensures Valid()
      ensures fired == (old(actionEnd).Timer? && old(actionEnd).id in old(timers) &&
                        old(timers)[old(actionEnd).id] <= elapsed)
      ensures fired ==> actionEnd == NoTimer && timers == map[]
      ensures !fired ==> actionEnd == old(actionEnd) &&
                         timers.Keys == old(timers).Keys &&
                         forall id :: id in timers ==> timers[id] == old(timers)[id] - elapsed
    {
      fired := actionEnd.Timer? && actionEnd.id in timers && timers[actionEnd.id] <= elapsed;
      if fired {
        timers := timers - {actionEnd.id};
        actionEnd := NoTimer;
        assert timers.Keys <= {};
      } else if actionEnd.Timer? && actionEnd.id in timers {
        timers := timers[actionEnd.id := timers[actionEnd.id] - elapsed];
      }
    }
  }

  /** With the resolution offset and zoom unchanged, releasing the mouse at a point
      commits exactly the candidate a mousemove to that point emits. */
  method MoveThenRelease(t: TransformContext, clientX: real, clientY: real, elementWidth: nat)
    returns (candidate: Candidate)
    requires t.Valid() && t.mousedown && elementWidth > 0
    modifies t
    ensures t.Valid() && !t.mousedown
    ensures candidate == Candidate(t.zoom, t.offsetX, t.offsetY)
  {
    var emitted := t.MouseMove(clientX, clientY, elementWidth);
    candidate := emitted.value;
    t.MouseUp(clientX, clientY, elementWidth);
  }

  /** Quiet time after a wheel event: 499 ms do not end the interaction, a second
      wheel event restarts the delay, and onEnd comes 500 ms after the last event. */
  method WheelDebounce(t: TransformContext) returns (early: bool, restarted: bool, ended: bool)
    requires t.Valid()
    modifies t
    ensures !early && !restarted && ended
    ensures t.actionEnd == NoTimer && t.timers == map[]
  {
    t.Wheel(1.0);
    early := t.Tick(499);
    t.Wheel(-1.0);
    restarted := t.Tick(499);
    ended := t.Tick(1);
  }
}
